=== FILE: README.md ===
# Portfolio site scripts: contact form and page state, in Dafny

This project models the sequential logic of a static portfolio site's
client-side scripts, `scripts/contact.js` and `scripts/main.js`, and proves
properties of that model. The DOM, the canvas and the browser's timers are
left out. What remains is a set of pure functions and small state machines:

- **Contact form** (`scripts/contact.js`). This covers the field validator
  `validateField`, which checks "required", then the e-mail pattern
  `/^[^\s@]+@[^\s@]+\.[^\s@]+$/`, then the 10-character minimum for the
  message. The last failing check sets the message. It also covers
  `validateForm` over the required controls, and the submit handler as a
  state machine: validation, busy state, send, success or failure, and the
  `finally` block. `sendEmail` is modelled with its placeholder-key branch,
  and `showStatus` with the auto-hide of success banners. The character
  counter is the last part.
- **Page state** (`scripts/main.js`). This covers the particle field:
  - particle creation from random draws;
  - the count `min(100, floor(w*h/15000))`;
  - `init`;
  - the per-frame move with wrap-around;
  - the line rule with its alpha `0.1*(1-d/120)`;
  - the re-seed guard on resize.

  It also covers the mobile-menu state machine, the header and back-to-top
  scroll thresholds, and the project stagger classes.

Modules, one per component:

| file | module | models |
|---|---|---|
| wrappers.dfy | Wrappers | `Option` |
| text.dfy | Text | JavaScript whitespace, `trim`, decimal rendering of numbers in template strings |
| email_pattern.dfy | EmailPattern | the e-mail regular expression: a literal reading (`MatchesPattern`) and a single scan (`IsEmailAddress`), proved equal |
| validation.dfy | Validation | `validateField` |
| form_controls.dfy | FormControls | controls with their inline errors, `validateForm`, `querySelector('#id')`, the reset after a successful send |
| status_banner.dfy | StatusBanner | `showStatus` and the success auto-hide timers |
| delivery.dfy | Delivery | `sendEmail` |
| submission.dfy | Submission | the submit handler |
| char_counter.dfy | CharCounter | `initCharacterCounter` |
| particles.dfy | Particles | `createParticle`, the particle count, `init`, the resize listener |
| particle_frame.dfy | ParticleFrame | one `animate` frame: move, wrap, lines |
| mobile_menu.dfy | MobileMenu | `initMobileMenu` |
| page_effects.dfy | PageEffects | `initHeaderScroll`, `initBackToTop`, the stagger class of `initProjectFilters` |

Inputs the model takes as parameters:

- Every `Math.random()` result; one `Draws` value holds the six draws of one particle.
- The viewport size and the scroll offset.
- The relay's answer: whether loading the SDK and `send` resolved.
- The events the menu receives.

Coordinates, speeds and alphas are `real`s. Distances are compared squared,
so no square root is needed.

Some behaviour of the code that a reader might not expect:

- The resize listener tests the current particle count against [20, 150].
  A field never holds more than 100 particles, so only the lower bound can
  fire.
- The character counter shows the length as it is, with no cap. Only the
  `maxlength` attribute limits it.
- The template parameters sent to the relay are the raw field values. They
  are not trimmed, although validation looks at trimmed values.
- The e-mail check is the regular expression as written: three non-empty runs
  of characters that are neither whitespace nor '@', joined by one '@' and a
  '.'. A second '@' is rejected. So is an address whose only '.' directly
  follows the '@' (`a@.c`), or whose last '.' has nothing after it (`a@b.`,
  `a@.b.`). A '.' right after the '@' is accepted when the domain has a
  later '.' with text after it (`a@.b.c`).
- The header runs its scroll check once at load. The back-to-top button
  does not: it changes only on scroll events.

## Model

| member | source | states |
|---|---|---|
| Text.TrimPadded | scripts/contact.js:186 | `trim` removes exactly the surrounding whitespace: a trimmed core padded with whitespace on both sides trims back to that core |
| Text.TrimTrimmed | scripts/contact.js:186 | a value with no surrounding whitespace is left as it is |
| Text.TrimIdempotent | scripts/contact.js:186 | trimming twice is the same as trimming once |
| Text.Trim | scripts/contact.js:186 | the trimmed value has no whitespace at either end, and it is empty exactly when the input is all whitespace |
| Text.NatToDecimal | scripts/contact.js:260 | a number in a template string renders as a non-empty string of digits with no leading zero |
| Text.DecimalRoundTrip | scripts/contact.js:260 | the decimal text of a number in a template string reads back as that number |
| Text.DecimalInjective | scripts/contact.js:260 | two numbers render the same iff they are equal |
| EmailPattern.EmailScanMatchesPattern | scripts/contact.js:198-199 | the scan accepts a string exactly when the regex does: a non-empty `[^\s@]` run, one '@', then a `[^\s@]` run with a '.' that has non-empty runs on both sides |
| EmailPattern.ScanImpliesPattern | scripts/contact.js:198-199 | every string the scan accepts splits into the regex's three runs around an '@' and a '.' |
| EmailPattern.PatternImpliesScan | scripts/contact.js:198-199 | every split the regex allows is accepted by the scan |
| EmailPattern.IsEmailAddress | scripts/contact.js:198-199 | the scan the validator runs: before the first '@' a non-empty run without whitespace, after it a run without whitespace or '@' of at least three characters with a '.' neither first nor last; EmailScanMatchesPattern proves it equal to the regex |
| EmailPattern.IndexOf | scripts/contact.js:198-199 | the position found is the first occurrence of the character, and none is found only when the character is absent |
| EmailPattern.EmailSamples | scripts/contact.js:198-199 | "a@b.c" matches the e-mail pattern and "not-an-email" does not |
| EmailPattern.EmailRejects | scripts/contact.js:198-199 | a second '@' is rejected (`a@b@c.d`), so is an address whose only '.' directly follows the '@' (`a@.c`), and so is one whose last '.' ends it (`a@.b.`) |
| EmailPattern.DotAfterAtAccepted | scripts/contact.js:198-199 | `a@.b.c` is accepted: a '.' directly after the '@' passes when the domain has a later '.' with text after it, because the middle run may contain dots |
| Validation.ValidateField | scripts/contact.js:185-218 | a field is valid exactly when its message is empty, and the message is one of the three texts in the source |
| Validation.CheckValue | scripts/contact.js:187-217 | on an already trimmed value, the verdict is valid exactly when no message was set |
| Validation.LastFailureWinsOn | scripts/contact.js:189-217 | on an already trimmed value, the field is valid iff no check fails, and otherwise the last failing check's message is reported |
| Validation.LastFailureWins | scripts/contact.js:189-217 | checks run required, then e-mail, then length; the field is valid iff none fails, and otherwise the LAST failing check's message is reported |
| Validation.BlankField | scripts/contact.js:186-194 | a blank value is invalid with "This field is required" if the field is required, and valid otherwise; the e-mail and length checks cannot fire on it |
| Validation.EmailFieldValidity | scripts/contact.js:197-203 | a non-blank e-mail field (other than `#message`) is valid iff its trimmed value matches the pattern; if not, it reports the e-mail message |
| Validation.MessageFieldValidity | scripts/contact.js:206-209 | a non-blank `#message` field is valid iff its trimmed length is at least 10 |
| Validation.TenCharacterMessagePasses | scripts/contact.js:206-209 | a message of exactly 10 characters passes, so the boundary is inclusive |
| Validation.ShortMessageFails | scripts/contact.js:206-209 | "short" fails the length check; padded to 12 characters it still fails, because length is measured after trimming |
| Validation.PaddedAddressPasses | scripts/contact.js:186-203 | " a@b.c " passes, because surrounding spaces are trimmed before matching |
| Validation.NonAddressFails | scripts/contact.js:197-203 | "not-an-email" is invalid with "Please enter a valid email address" |
| Validation.LaterCheckOverwrites | scripts/contact.js:197-209 | when both the e-mail check and the length check fail, the length message is the one shown |
| FormControls.CheckControl | scripts/contact.js:211-215 | an invalid field shows its validator message, and a valid one has its error cleared |
| FormControls.ClearError | scripts/contact.js:166-168 | typing removes the field's error and changes nothing else |
| FormControls.SubmitCheck | scripts/contact.js:174-179 | `validateForm` leaves a non-required control exactly as it was; a required one is validated with its display effect and shows no error iff it validates |
| FormControls.ShownErrorsReflectValidity | scripts/contact.js:172-183 | after the pass, no required control shows an error iff every required control validates |
| FormControls.ValidateForm | scripts/contact.js:172-183 | the form is valid iff every required control validates; every required control is validated and shows its own verdict (no early exit), and the others are left alone |
| FormControls.FindById | scripts/contact.js:101-104 | the lookup by id returns the first control carrying that id, or nothing when none does |
| FormControls.ResetAfterSuccessAsWritten | scripts/contact.js:53-58 | every value is emptied; each `.form-group` control then shows what the validator says about its empty value, and a control outside a `.form-group` keeps the error it had |
| FormControls.ResetShowsRequiredErrors | scripts/contact.js:53-58 | as written, after a successful send every required `.form-group` control shows "This field is required", every optional one shows nothing, and controls outside a `.form-group` keep their errors |
| FormControls.ResetAfterSuccess | scripts/contact.js:53-58 | corrected reset: every value is empty and no field shows an error |
| StatusBanner.ShowStatus | scripts/contact.js:130-147 | the new banner is shown; a success banner arms exactly one auto-hide timer, an error banner arms none |
| StatusBanner.AutoHideAsWritten | scripts/contact.js:142-147 | as written, a firing timer empties the element, whatever banner it shows |
| StatusBanner.AutoHideClearsLaterError | scripts/contact.js:142-147 | a success banner followed by an error banner: the success timer removes the error banner |
| StatusBanner.AutoHide | scripts/contact.js:142-147 | corrected timer: the oldest pending timer is consumed, the serial is kept, and the banner is either hidden or left as it is; which of the two is stated by LaterBannerPersists and OwnBannerCleared |
| StatusBanner.LaterBannerPersists | scripts/contact.js:142-147 | with the corrected timer, a banner put up after the one the timer was armed for stays on screen, whatever its kind |
| StatusBanner.OwnBannerCleared | scripts/contact.js:142-147 | with the corrected timer, the timer armed for the banner on screen removes it |
| StatusBanner.SecondSuccessOutlivesFirstTimer | scripts/contact.js:142-147 | after two success banners, the first timer keeps the second with the corrected timer and hides it as written |
| StatusBanner.InitialConsistent | scripts/contact.js:27-32 | the freshly created status element, empty with no timer, satisfies the bookkeeping invariant |
| StatusBanner.ShowStatusConsistent | scripts/contact.js:130-147 | showing a banner keeps the timer bookkeeping consistent: the banner on screen has a pending timer iff it is a success banner |
| StatusBanner.AutoHideConsistent | scripts/contact.js:142-147 | a firing corrected timer keeps the bookkeeping consistent |
| StatusBanner.ErrorBannerPersists | scripts/contact.js:142-147 | with the corrected timer, an error banner is never removed by a timer |
| StatusBanner.FireAll | scripts/contact.js:142-147 | once every pending corrected timer has fired, none is left, the invariant still holds, and no new banner was put up |
| StatusBanner.HiddenStaysHidden | scripts/contact.js:142-147 | an empty status element stays empty while the corrected timers fire |
| StatusBanner.SuccessBannerClears | scripts/contact.js:142-147 | with the corrected timer, a success banner is gone once the pending timers have fired |
| Delivery.SendEmail | scripts/contact.js:74-109 | with the placeholder key the send is simulated and succeeds; otherwise it succeeds iff the relay accepts and `#name`, `#email`, `#subject` and `#message` all exist; a relayed send carries the configured ids and those four values |
| Delivery.ValueById | scripts/contact.js:101-104 | a value is found iff some control has the id |
| Delivery.TemplateParamsOf | scripts/contact.js:100-105 | the payload takes the values of the first `#name`, `#email`, `#subject` and `#message` controls, and there is none when one of them is missing |
| Delivery.SendCarriesFieldValues | scripts/contact.js:97-108 | with a real key and an accepting relay, the send carries the raw, untrimmed values of the first control with each of the four ids to the configured service and template |
| Delivery.ShippedConfigAlwaysSucceeds | scripts/contact.js:76-89 | with the configuration as shipped, every send succeeds, whatever the relay would answer |
| Submission.EnterBusy | scripts/contact.js:41-45 | the busy state: `loading` on, the button disabled and labelled "Sending..." |
| Submission.AfterSend | scripts/contact.js:47-61 | a resolved send shows the success banner and applies the reset; a rejected one shows the error banner and keeps the controls |
| Submission.Submit | scripts/contact.js:34-68 | an invalid form stops with no busy state, no send and no status; otherwise the busy state (loading, button disabled, "Sending...") is entered and left on every path, with the original label restored and the button enabled; on failure the error banner is shown and the controls are kept; on success the success banner is shown and arms its auto-hide timer, every value is emptied while `required`, `type`, `id` and the `.form-group` flag are kept, each required `.form-group` control shows "This field is required", each optional one shows nothing, and the others keep their errors |
| Submission.SubmitCorrected | scripts/contact.js:34-68 | the same handler with the corrected reset: the same busy bracket, banner and timer, and after a successful send every value is empty, the other attributes are kept, and no control shows an error |
| CharCounter.OnInput | scripts/contact.js:258-267 | the counter reads "n / 1000" and is near the limit iff n is at least 900 |
| CharCounter.NearLimitBoundary | scripts/contact.js:258-266 | 900 is flagged and 899 is not, and at 900 the text reads "900 / 1000" |
| CharCounter.NearLimitMonotone | scripts/contact.js:262 | a longer message is flagged whenever a shorter one is |
| CharCounter.CounterTextInjective | scripts/contact.js:260 | different lengths give different counter texts |
| CharCounter.InitialCounter | scripts/contact.js:252-255 | the counter as created, before any input |
| CharCounter.InitialCounterText | scripts/contact.js:255 | the counter starts as "0 / 1000", which is what the input listener shows for an empty field |
| Particles.CreateParticle | scripts/main.js:265-274 | with draws in [0,1): size in [1,3), speeds in [-0.25,0.25), opacity in [0.2,0.7), position on the canvas, and below the far edge on a non-empty axis |
| Particles.CreateParticleReachesAll | scripts/main.js:265-274 | the ranges are exact: every particle in them, inside a non-empty canvas, comes from some draws |
| Particles.ParticleCount | scripts/main.js:279 | the count is at most 100, and below 100 it is the largest n with n*15000 <= w*h, which is the floor of the area over 15000 |
| Particles.Init | scripts/main.js:276-283 | the canvas takes the viewport size, and the new list holds exactly `ParticleCount` particles and nothing else, the i-th created from the i-th draws, all well formed and on the canvas |
| Particles.Resize | scripts/main.js:323-329 | the canvas always takes the new size; the particles are re-seeded iff the count is below 20 or above 150, and otherwise left unchanged |
| Particles.ReseedsOnResize | scripts/main.js:326 | the resize guard: re-seed when the current count is below 20 or above 150 |
| Particles.ResizeReseedsOnlySparseFields | scripts/main.js:326 | since a field never holds more than 100 particles, the `> 150` branch never fires: a resize re-seeds iff fewer than 20 particles exist |
| Particles.SeededCountAndGuard | scripts/main.js:279 | a freshly seeded field is re-seeded on resize iff its viewport area is below 300 000 |
| ParticleFrame.Wrap | scripts/main.js:292-296 | after wrapping, a coordinate is in [0, bound]: below 0 it becomes the bound, above the bound it becomes 0, and otherwise it is unchanged |
| ParticleFrame.WrapIdempotent | scripts/main.js:292-296 | wrapping an already wrapped coordinate changes nothing |
| ParticleFrame.Step | scripts/main.js:288-296 | one update puts the particle on the canvas and keeps its size, speeds and opacity |
| ParticleFrame.StepInside | scripts/main.js:289-296 | a particle whose move stays on the canvas moves exactly by its speed |
| ParticleFrame.DistanceThreshold | scripts/main.js:308-310 | for d >= 0, `d < 120` iff `d*d < 14400`, so squared distances decide the line rule |
| ParticleFrame.LinkAlpha | scripts/main.js:314 | a line shorter than 120 has alpha in (0, 0.1] |
| ParticleFrame.LinkAlphaDecreasing | scripts/main.js:314 | alpha strictly decreases with distance |
| ParticleFrame.DrawnLinkAlpha | scripts/main.js:305-316 | every drawn line is shorter than 120, and its alpha lies in (0, 0.1] |
| ParticleFrame.RowLinksExact | scripts/main.js:305-317 | the inner loop draws a line from the moved particle i to each later j exactly when their squared distance is below 14400 |
| ParticleFrame.LinksFromExact | scripts/main.js:288-318 | a frame draws a line for the pair i<j exactly when the moved i and the not-yet-moved j are closer than 120 |
| ParticleFrame.Frame | scripts/main.js:285-321 | a frame keeps the canvas size and the particle count, and moves every particle by one update |
| ParticleFrame.FrameProperties | scripts/main.js:285-321 | a frame keeps the field well formed, puts every particle on the canvas (even after a resize), and draws exactly the lines of the line rule |
| MobileMenu.Handle | scripts/main.js:84-109 | one event handled by its listener: a click toggles both classes and sets `aria-expanded` and the overflow style from the nav's new state; a link click closes; Escape closes an open menu |
| MobileMenu.HandleEffects | scripts/main.js:84-109 | on a consistent menu: a click toggles it, and `aria-expanded` and the scroll lock follow; a link click always closes it; Escape closes it only when open, and any other key does nothing |
| MobileMenu.ClickTwiceRestores | scripts/main.js:84-89 | two clicks restore the menu |
| MobileMenu.RunConsistent | scripts/main.js:78-109 | any sequence of events keeps the nav class, the button class, `aria-expanded` and the overflow style in agreement |
| MobileMenu.RunAppend | scripts/main.js:84-109 | handling events one by one is the same as handling the prefix and then the last event |
| MobileMenu.LinkClickCloses | scripts/main.js:92-99 | whatever came before, a link click leaves the menu closed |
| PageEffects.HeaderScrolled | scripts/main.js:55-59 | the test of `handleScroll`: the header carries `scrolled` when the offset exceeds 50 pixels |
| PageEffects.HeaderScrollBoundary | scripts/main.js:52-59 | the header is scrolled iff scrollY > 50: off at exactly 50, and it stays on further down |
| PageEffects.BackToTopVisible | scripts/main.js:131-135 | the scroll listener's test: the button carries `visible` when the offset exceeds 500 pixels |
| PageEffects.BackToTopBoundary | scripts/main.js:131-135 | the listener's test is off at exactly 500 and stays on further down, and whenever it passes the header's test passes too |
| PageEffects.ToggledAfter | scripts/main.js:54-62 | a class kept by a scroll listener: each scroll event sets it from the offset the event reports |
| PageEffects.ToggledFollowsLastScroll | scripts/main.js:128-138 | after at least one scroll event the class depends only on the last offset |
| PageEffects.HeaderAfter | scripts/main.js:54-63 | the header after the initial check at the load offset and then the scroll events |
| PageEffects.BackToTopAfter | scripts/main.js:117-138 | the button starts without `visible` and only scroll events change it |
| PageEffects.HeaderTracksOffset | scripts/main.js:54-63 | the header always matches the current offset, including right after load, thanks to the initial `handleScroll()` |
| PageEffects.BackToTopTracksScrolls | scripts/main.js:117-138 | the button is visible iff at least one scroll event has fired and the last one reported an offset above 500 |
| PageEffects.LoadedDeepPage | scripts/main.js:63 | a page loaded already scrolled past 500 pixels shows the scrolled header but no back-to-top button until the first scroll |
| PageEffects.StaggerIndex | scripts/main.js:371 | the stagger suffix is always in 1..5 |
| PageEffects.StaggerClass | scripts/main.js:371 | the class name `stagger-` followed by the stagger number |
| PageEffects.StaggerClassPeriodic | scripts/main.js:371 | two projects share a stagger class iff their indices agree modulo 5 |
| PageEffects.FirstStaggerClasses | scripts/main.js:369-372 | projects 0 and 5 get stagger-1, and project 4 gets stagger-5 |

## Left out

- DOM work: element creation, class and style strings, `innerHTML` markup, `showFieldError`/`clearFieldError` markup. Only their effect is kept: which error text a field shows, if any.
- The hero landmark check of `initParticles` and the nav/header check of `initMobileMenu` are not modelled. The model assumes the components are active.
- Canvas drawing calls, `requestAnimationFrame` scheduling, and the `beforeunload` cancellation are not modelled. They are browser APIs. One frame is a function, and the loop is the repeated application of that function.
- `Math.random`, `Math.sqrt` and IEEE double rounding are not modelled. Draws are parameters in [0, 1). Arithmetic is on exact reals, and distances are compared squared. In doubles, `1000 * 0.9` is exactly 900, so the counter threshold is the same as in the model.
- The EmailJS SDK, its script loading, `init` and `send` are not modelled. They are a third-party network client, and their combined answer is the input `relayAccepts`. The 1.5 s delay and the console logging of the placeholder branch are not modelled.
- `setTimeout` durations are not modelled: the 5 s auto-hide, and the typing effect's 80/500/2000 ms. Only the order in which auto-hide timers fire is kept. With equal delays, that order is first armed, first fired.
- `initScrollReveal`, `initSkillBars`, `initCounters`, `initTypingEffect` and `initSmoothScroll` are not modelled. They are `IntersectionObserver`, frame-driven float animation, or `scrollIntoView` glue with no state rule. For the same reason, the re-run of `initScrollReveal` in `initProjectFilters` is not modelled.
- `showFieldError` and `clearFieldError` find `.field-error` through the control's parent element, so two controls with the same parent share one error slot. The model keeps one error per control: it assumes each control has its own parent element.
- `form.querySelector("#id")` matches any element of the form, such as a `<select>`. The model looks only among the form's inputs and textareas: it assumes the four ids belong to inputs or textareas.
- The `console.error` logging of a failed send is not modelled.
- The floating-label styles reset by the synthetic blur are not modelled; they are CSS. Only the blur listener's call to `validateField` is modelled.
- The `maxlength` attribute is not modelled. The browser truncates input at 1000 characters; the counter model accepts any length.
- A form without a submit button is not modelled. There, the handler throws at the label swap and leaves `loading` on. The model assumes that the button exists.
- `form.reset()` restores each control's default value. The model takes the defaults to be empty.
- `trim` and `\s` use a fixed whitespace set over `seq<char>`: the JavaScript WhiteSpace and LineTerminator code points. UTF-16 lengths are not modelled. A character outside the Basic Multilingual Plane counts once here and twice in JavaScript.
- Submission.Submit: treats one submit, from start to settle, as a single step. It does not model other events during the `await`. The inputs stay editable while the form is busy, because only the button is disabled. So typing, `blur` validation, a pending auto-hide timer, or a second submit can run before the send settles. The model assumes none does. On the relay path the four values are read after the SDK has loaded, so edits made during that load would be sent. The model sends the controls as they were when the busy state began. The failure clause that the controls are kept holds only under this assumption.

## Findings

| source | as written | input that shows it | evidently intended | confidence | as-written member | corrected member |
|---|---|---|---|---|---|---|
| scripts/contact.js:142-147 | The success banner's 5 s timer empties the status element, whatever it shows when the timer fires. | A successful send, then a failed resend within 5 s. The error banner vanishes when the first timer fires. | Only the success banner the timer was armed for is removed. An error banner stays until the next status. | medium; not executed | StatusBanner.AutoHideAsWritten (shown by StatusBanner.AutoHideClearsLaterError) | StatusBanner.AutoHide (proved by StatusBanner.LaterBannerPersists, StatusBanner.ErrorBannerPersists and StatusBanner.SuccessBannerClears) |
| scripts/contact.js:53-58 | The synthetic `blur` sent to each control after `form.reset()` also reaches the validation listener (lines 161-163). That listener runs `validateField` on the just-emptied fields. | A successful send with a required field inside a `.form-group`. The emptied field then shows "This field is required". | Reset the floating labels and leave the fresh form free of error messages. | medium (depends on the page wrapping required fields in `.form-group`); not executed | FormControls.ResetAfterSuccessAsWritten (shown by FormControls.ResetShowsRequiredErrors) | FormControls.ResetAfterSuccess (used by Submission.SubmitCorrected) |

=== FILE: char_counter.dfy ===
/**
 * `initCharacterCounter` of scripts/contact.js: the counter under the
 * message field shows "n / 1000" and switches to the accent colour from 90%
 * of the maximum on.
 */
module CharCounter {
  import opened Text

  const MaxLength := 1000

  /** What the counter shows: its text and whether it is in the near-limit colour. */
  datatype Counter = Counter(text: string, nearLimit: bool)

  /** The template string `${n} / ${maxLength}`. */
  function CounterText(n: nat): string {
    NatToDecimal(n) + " / " + NatToDecimal(MaxLength)
  }

  /** The comparison `currentLength >= maxLength * 0.9`, on real numbers. */
  predicate NearLimit(n: nat) {
    (n as real) >= (MaxLength as real) * 0.9
  }

  /** The counter as first created, before any input. */
  function InitialCounter(): Counter {
    Counter(CounterText(0), false)
  }

  /** The `input` listener: reads the value's length and redraws the counter. */
  function OnInput(n: nat): (c: Counter)
    ensures c.nearLimit <==> n >= 900
    ensures c.text == NatToDecimal(n) + " / 1000"
  {
    Counter(CounterText(n), NearLimit(n))
  }

  /** 900 characters are flagged, 899 are not, and the text reads "900 / 1000". */
  lemma NearLimitBoundary()
    ensures OnInput(900).nearLimit && !OnInput(899).nearLimit
    ensures OnInput(900).text == "900 / 1000"
  {
    assert NatToDecimal(9) == "9";
    assert NatToDecimal(90) == "90";
    assert NatToDecimal(900) == "900";
  }

  /** Once flagged, a longer message stays flagged. */
  lemma NearLimitMonotone(a: nat, b: nat)
    requires a <= b && OnInput(a).nearLimit
    ensures OnInput(b).nearLimit
  {
  }

  /** Different lengths give different counter texts. */
  lemma CounterTextInjective(a: nat, b: nat)
    ensures CounterText(a) == CounterText(b) <==> a == b
  {
    if CounterText(a) == CounterText(b) {
      var suffix := " / " + NatToDecimal(MaxLength);
      assert CounterText(a) == NatToDecimal(a) + suffix;
      assert CounterText(b) == NatToDecimal(b) + suffix;
      AppendCancel(NatToDecimal(a), NatToDecimal(b), suffix);
      DecimalInjective(a, b);
    }
  }

  lemma InitialCounterText()
    ensures InitialCounter() == OnInput(0)
    ensures InitialCounter().text == "0 / 1000"
  {
  }
}

=== FILE: delivery.dfy ===
/**
 * `sendEmail` of scripts/contact.js: with the placeholder public key the
 * send is simulated and always succeeds; otherwise the four field values are
 * handed to the e-mail relay, whose answer is an input here.
 */
module Delivery {
  import opened Wrappers
  import opened FormControls

  /** The relay's public key, service id and template id. */
  datatype SendConfig = SendConfig(publicKey: string, serviceId: string, templateId: string)

  const PlaceholderPublicKey := "YOUR_PUBLIC_KEY"

  /** The configuration the script ships with. */
  const ShippedConfig := SendConfig(PlaceholderPublicKey, "YOUR_SERVICE_ID", "YOUR_TEMPLATE_ID")

  /** The template parameters: the raw, untrimmed values of four fields. */
  datatype TemplateParams = TemplateParams(fromName: string, fromEmail: string, subject: string, message: string)

  /** How one send ended: simulated, accepted by the relay, or rejected. */
  datatype Outcome =
    | Simulated
    | Relayed(serviceId: string, templateId: string, params: TemplateParams)
    | Failed
  {
    /** The promise resolved, so the submit handler takes its success path. */
    predicate Succeeded() {
      !Failed?
    }
  }

  /** The value of the first control with the given id, if there is one. */
  function ValueById(cs: seq<Control>, id: string): (r: Option<string>)
    ensures r.Some? <==> exists i :: 0 <= i < |cs| && cs[i].field.id == id
  {
    match FindById(cs, id)
    case Some(i) => Some(cs[i].field.value)
    case None => None
  }

  /**
   * Reads `#name`, `#email`, `#subject` and `#message`; a missing element
   * makes the send throw.
   */
  function TemplateParamsOf(cs: seq<Control>): Option<TemplateParams> {
    match (ValueById(cs, "name"), ValueById(cs, "email"), ValueById(cs, "subject"), ValueById(cs, "message"))
    case (Some(n), Some(e), Some(s), Some(m)) => Some(TemplateParams(n, e, s, m))
    case _ => None
  }

  /**
   * One send. `relayAccepts` is the relay's answer: whether loading the SDK
   * and the `send` call both resolved.
   */
  function SendEmail(cfg: SendConfig, cs: seq<Control>, relayAccepts: bool): (d: Outcome)
    ensures cfg.publicKey == PlaceholderPublicKey ==> d == Simulated
    ensures cfg.publicKey != PlaceholderPublicKey ==>
      (d.Succeeded() <==> relayAccepts && TemplateParamsOf(cs).Some?)
    ensures d.Relayed? ==>
      && d.serviceId == cfg.serviceId && d.templateId == cfg.templateId
      && Some(d.params) == TemplateParamsOf(cs)
  {
    if cfg.publicKey == PlaceholderPublicKey then Simulated
    else match TemplateParamsOf(cs)
      case None => Failed
      case Some(params) => if relayAccepts then Relayed(cfg.serviceId, cfg.templateId, params) else Failed
  }

  /** With the shipped configuration every send succeeds, whatever the relay would say. */
  lemma ShippedConfigAlwaysSucceeds(cs: seq<Control>, relayAccepts: bool)
    ensures SendEmail(ShippedConfig, cs, relayAccepts).Succeeded()
  {
  }

  /** `i` is the position of the first control carrying `id`. */
  predicate FirstWithId(cs: seq<Control>, id: string, i: nat) {
    i < |cs| && cs[i].field.id == id && forall k :: 0 <= k < i ==> cs[k].field.id != id
  }

  /**
   * With a real key and an accepting relay, the send carries the raw values
   * of the first `#name`, `#email`, `#subject` and `#message` controls,
   * untrimmed, to the configured service and template.
   */
  lemma SendCarriesFieldValues(cfg: SendConfig, cs: seq<Control>, n: nat, e: nat, s: nat, m: nat)
    requires cfg.publicKey != PlaceholderPublicKey
    requires FirstWithId(cs, "name", n) && FirstWithId(cs, "email", e)
    requires FirstWithId(cs, "subject", s) && FirstWithId(cs, "message", m)
    ensures SendEmail(cfg, cs, true) == Relayed(cfg.serviceId, cfg.templateId,
      TemplateParams(cs[n].field.value, cs[e].field.value, cs[s].field.value, cs[m].field.value))
  {
    FirstIsFound(cs, "name", n);
    FirstIsFound(cs, "email", e);
    FirstIsFound(cs, "subject", s);
    FirstIsFound(cs, "message", m);
  }

  lemma FirstIsFound(cs: seq<Control>, id: string, i: nat)
    requires FirstWithId(cs, id, i)
    ensures FindById(cs, id) == Some(i)
  {
  }
}

=== FILE: email_pattern.dfy ===
/**
 * The e-mail check of the contact form: the regular expression
 * /^[^\s@]+@[^\s@]+\.[^\s@]+$/ (scripts/contact.js), a simplification of an
 * address, not the RFC 5322 addr-spec grammar.
 */
module EmailPattern {
  import opened Wrappers
  import opened Text

  /** The class `[^\s@]`: neither whitespace nor '@'. */
  predicate IsAtomChar(c: char) {
    !IsSpace(c) && c != '@'
  }

  predicate AllAtom(s: string) {
    forall i :: 0 <= i < |s| ==> IsAtomChar(s[i])
  }

  /**
   * The regular expression read literally: `s` splits at an '@' and a later
   * '.' into three non-empty runs of `[^\s@]`.
   */
  ghost predicate SplitsAt(s: string, at: nat, dot: nat) {
    && 0 < at && at + 1 < dot && dot + 1 < |s|
    && s[at] == '@' && s[dot] == '.'
    && AllAtom(s[..at]) && AllAtom(s[at + 1..dot]) && AllAtom(s[dot + 1..])
  }

  ghost predicate MatchesPattern(s: string) {
    exists at: nat, dot: nat :: SplitsAt(s, at, dot)
  }

  /** Position of the first occurrence of `c`. */
  function IndexOf(s: string, c: char): (r: Option<nat>)
    ensures r.Some? ==> r.value < |s| && s[r.value] == c && c !in s[..r.value]
    ensures r.None? ==> c !in s
  {
    if |s| == 0 then None
    else if s[0] == c then Some(0)
    else match IndexOf(s[1..], c)
      case Some(i) =>
        assert s[..i + 1] == [s[0]] + s[1..][..i];
        Some(i + 1)
      case None => None
  }

  /**
   * A single scan deciding the pattern: the text before the first '@' is a
   * non-empty atom run, and the rest is an atom run (so no second '@') with
   * a '.' neither first nor last.
   */
  function IsEmailAddress(s: string): bool {
    match IndexOf(s, '@')
    case None => false
    case Some(at) =>
      var domain := s[at + 1..];
      && 0 < at && AllAtom(s[..at]) && AllAtom(domain)
      && 3 <= |domain| && '.' in domain[1..|domain| - 1]
  }

  lemma ScanImpliesPattern(s: string)
    requires IsEmailAddress(s)
    ensures MatchesPattern(s)
  {
    var at := IndexOf(s, '@').value;
    var domain := s[at + 1..];
    var inner := domain[1..|domain| - 1];
    var k :| 0 <= k < |inner| && inner[k] == '.';
    var dot := at + 2 + k;
    assert s[at + 1..dot] == domain[..k + 1];
    assert s[dot + 1..] == domain[k + 2..];
    assert SplitsAt(s, at, dot);
  }

  lemma PatternImpliesScan(s: string, at: nat, dot: nat)
    requires SplitsAt(s, at, dot)
    ensures IsEmailAddress(s)
  {
    var first := IndexOf(s, '@');
    assert first.Some? by {
      assert s[at] == '@';
    }
    var a := first.value;
    assert a == at;
    var domain := s[at + 1..];
    forall i | 0 <= i < |domain|
      ensures IsAtomChar(domain[i])
    {
      var j := at + 1 + i;
      if j < dot {
        assert domain[i] == s[at + 1..dot][i];
      } else if j > dot {
        assert domain[i] == s[dot + 1..][j - dot - 1];
      }
    }
    assert domain[1..|domain| - 1][dot - at - 2] == '.';
  }

  lemma EmailScanMatchesPattern(s: string)
    ensures IsEmailAddress(s) <==> MatchesPattern(s)
  {
    if IsEmailAddress(s) {
      ScanImpliesPattern(s);
    }
    if MatchesPattern(s) {
      var at: nat, dot: nat :| SplitsAt(s, at, dot);
      PatternImpliesScan(s, at, dot);
    }
  }

  // The sample lemmas below take their literal inputs as parameters pinned by
  // `requires`, so that Dafny does not unroll the scan on the literal itself.

  /** The two sample inputs: a minimal address passes and a word without '@' fails. */
  lemma EmailSamples(good: string, bad: string)
    requires good == "a@b.c" && bad == "not-an-email"
    ensures MatchesPattern(good)
    ensures !MatchesPattern(bad)
  {
    assert SplitsAt(good, 1, 3);
    assert '@' !in bad;
    EmailScanMatchesPattern(bad);
  }

  /**
   * A second '@' is rejected, so is an address whose only '.' directly
   * follows the '@', and so is one whose last '.' has nothing after it.
   */
  lemma EmailRejects(twoAts: string, dotFirst: string, dotLast: string)
    requires twoAts == "a@b@c.d" && dotFirst == "a@.c" && dotLast == "a@.b."
    ensures !MatchesPattern(twoAts)
    ensures !MatchesPattern(dotFirst)
    ensures !MatchesPattern(dotLast)
  {
    EmailScanMatchesPattern(dotLast);
    assert IndexOf(dotLast, '@') == Some(1);
    assert dotLast[2..][1..2] == "b";
    EmailScanMatchesPattern(twoAts);
    EmailScanMatchesPattern(dotFirst);
    assert IndexOf(twoAts, '@') == Some(1);
    assert !IsAtomChar(twoAts[2..][1]);
    assert IndexOf(dotFirst, '@') == Some(1);
  }

  /**
   * A '.' directly after the '@' is accepted when the domain has a later '.'
   * with text after it: the run between the '@' and that '.' may itself
   * contain dots.
   */
  lemma DotAfterAtAccepted(v: string)
    requires v == "a@.b.c"
    ensures MatchesPattern(v)
  {
    assert SplitsAt(v, 1, 4);
  }
}

=== FILE: form_controls.dfy ===
/**
 * The contact form's inputs and textareas together with the inline error
 * each one may be showing, and the passes of scripts/contact.js that update
 * them: per-field validation with its display effect, `validateForm`, and
 * the reset after a successful send.
 */
module FormControls {
  import opened Wrappers
  import opened Validation

  /**
   * One input or textarea: what the validator reads, whether it sits in a
   * `.form-group`, and the `.field-error` text shown under it, if any.
   */
  datatype Control = Control(field: Field, inFormGroup: bool, error: Option<string>)

  /**
   * `validateField` on one control including its effect on the page: an
   * invalid field shows its message, a valid one has its error cleared.
   */
  function CheckControl(c: Control): (r: Control)
    ensures r.field == c.field && r.inFormGroup == c.inFormGroup
    ensures r.error.None? <==> ValidateField(c.field).isValid
    ensures r.error.Some? ==> r.error.value == ValidateField(c.field).errorMessage
  {
    var v := ValidateField(c.field);
    c.(error := if v.isValid then None else Some(v.errorMessage))
  }

  /** The `input` listener: typing clears the error and leaves the value to the browser. */
  function ClearError(c: Control): (r: Control)
    ensures r.error.None? && r.field == c.field && r.inFormGroup == c.inFormGroup
  {
    c.(error := None)
  }

  /** Every `required` control passes the validator. */
  predicate AllRequiredValid(cs: seq<Control>) {
    RequiredValidBelow(cs, |cs|)
  }

  /** Every `required` control among the first `n` passes the validator. */
  predicate RequiredValidBelow(cs: seq<Control>, n: nat)
    requires n <= |cs|
  {
    forall i :: 0 <= i < n && cs[i].field.required ==> ValidateField(cs[i].field).isValid
  }

  /** What `validateForm` does to one control: required ones are checked, the rest left alone. */
  function SubmitCheck(c: Control): (r: Control)
    ensures r.field == c.field
    ensures c.field.required ==> (r.error.None? <==> ValidateField(c.field).isValid)
    ensures c.field.required ==> r == CheckControl(c)
    ensures !c.field.required ==> r == c
  {
    if c.field.required then CheckControl(c) else c
  }

  /** No required control among the first `n` of `shown` displays an error. */
  predicate NoRequiredErrorBelow(shown: seq<Control>, n: nat)
    requires n <= |shown|
  {
    forall i :: 0 <= i < n && shown[i].field.required ==> shown[i].error.None?
  }

  /**
   * `validateForm`: validates every required control, with no early exit,
   * so each of them ends up showing its own verdict; the form is valid
   * exactly when all of them are.
   */
  method ValidateForm(cs: seq<Control>) returns (isValid: bool, shown: seq<Control>)
    ensures isValid <==> AllRequiredValid(cs)
    ensures |shown| == |cs|
    ensures forall i :: 0 <= i < |cs| ==> shown[i] == SubmitCheck(cs[i])
  {
    isValid := true;
    shown := [];
    var k := 0;
    while k < |cs|
      invariant 0 <= k <= |cs| && |shown| == k
      invariant forall i :: 0 <= i < k ==> shown[i] == SubmitCheck(cs[i])
      invariant isValid <==> NoRequiredErrorBelow(shown, k)
    {
      var next := SubmitCheck(cs[k]);
      if next.field.required && next.error.Some? {
        isValid := false;
      }
      shown := shown + [next];
      k := k + 1;
    }
    ShownErrorsReflectValidity(cs, shown);
  }

  lemma ShownErrorsReflectValidity(cs: seq<Control>, shown: seq<Control>)
    requires |shown| == |cs|
    requires forall i :: 0 <= i < |cs| ==> shown[i] == SubmitCheck(cs[i])
    ensures NoRequiredErrorBelow(shown, |cs|) <==> AllRequiredValid(cs)
  {
    forall i | 0 <= i < |cs|
      ensures (cs[i].field.required ==> shown[i].error.None?) <==>
        (cs[i].field.required ==> ValidateField(cs[i].field).isValid)
    {
      assert shown[i] == SubmitCheck(cs[i]);
    }
  }

  /** `querySelector("#id")` within the form: the first control carrying that id. */
  function FindById(cs: seq<Control>, id: string): (r: Option<nat>)
    ensures r.Some? ==> r.value < |cs| && cs[r.value].field.id == id
    ensures r.Some? ==> forall i :: 0 <= i < r.value ==> cs[i].field.id != id
    ensures r.None? ==> forall i :: 0 <= i < |cs| ==> cs[i].field.id != id
  {
    if |cs| == 0 then None
    else if cs[0].field.id == id then Some(0)
    else match FindById(cs[1..], id)
      case Some(i) => Some(i + 1)
      case None => None
  }

  /** `form.reset()`, for controls whose default value is empty. */
  function ResetValue(c: Control): Control {
    c.(field := c.field.(value := ""))
  }

  /**
   * The reset after a successful send as the handler writes it: every value
   * is emptied, then a synthetic `blur` is sent to each control inside a
   * `.form-group`, and the `blur` listener runs the validator again.
   */
  function ResetAfterSuccessAsWritten(cs: seq<Control>): (r: seq<Control>)
    ensures |r| == |cs|
    ensures forall i :: 0 <= i < |cs| ==>
      r[i].field == cs[i].field.(value := "") && r[i].inFormGroup == cs[i].inFormGroup
    ensures forall i :: 0 <= i < |cs| && cs[i].inFormGroup ==>
      r[i].error == CheckControl(ResetValue(cs[i])).error
    ensures forall i :: 0 <= i < |cs| && !cs[i].inFormGroup ==> r[i].error == cs[i].error
  {
    seq(|cs|, i requires 0 <= i < |cs| =>
      if cs[i].inFormGroup then CheckControl(ResetValue(cs[i])) else ResetValue(cs[i]))
  }

  /**
   * As written, the reset leaves every required control of a `.form-group`
   * showing "This field is required" on the freshly emptied form; the
   * optional ones of a `.form-group` show nothing, and the controls outside
   * one keep whatever they showed before.
   */
  lemma ResetShowsRequiredErrors(cs: seq<Control>)
    ensures forall i :: 0 <= i < |cs| && cs[i].inFormGroup ==>
      ResetAfterSuccessAsWritten(cs)[i].error ==
        (if cs[i].field.required then Some(RequiredMessage) else None)
    ensures forall i :: 0 <= i < |cs| && !cs[i].inFormGroup ==>
      ResetAfterSuccessAsWritten(cs)[i].error == cs[i].error
  {
    forall i | 0 <= i < |cs| && cs[i].inFormGroup
      ensures ResetAfterSuccessAsWritten(cs)[i].error ==
        (if cs[i].field.required then Some(RequiredMessage) else None)
    {
      BlankField(ResetValue(cs[i]).field);
    }
  }

  /**
   * The reset as intended: every value emptied and no field showing an
   * error, so the form is back in its pristine state.
   */
  function ResetAfterSuccess(cs: seq<Control>): (r: seq<Control>)
    ensures |r| == |cs|
    ensures forall i :: 0 <= i < |cs| ==>
      r[i] == Control(cs[i].field.(value := ""), cs[i].inFormGroup, None)
  {
    seq(|cs|, i requires 0 <= i < |cs| => ClearError(ResetValue(cs[i])))
  }
}

=== FILE: mobile_menu.dfy ===
/**
 * The mobile navigation toggle of scripts/main.js (`initMobileMenu`): the
 * `active` class on the nav and on the button, the button's
 * `aria-expanded` attribute, and the page's `overflow` style.
 */
module MobileMenu {

  datatype Menu = Menu(navActive: bool, buttonActive: bool, ariaExpanded: string, bodyOverflow: string)

  /** The events the menu listens to. */
  datatype Event = ButtonClick | LinkClick | KeyDown(key: string)

  /** A boolean passed to `setAttribute`, which stores it as text. */
  function BoolText(b: bool): string {
    if b then "true" else "false"
  }

  /**
   * The menu as created, and after any close: no `active` class,
   * `aria-expanded="false"`, no overflow style.
   */
  const Closed := Menu(false, false, "false", "")

  /** The four parts agree: both `active` classes, the attribute and the scroll lock. */
  predicate Consistent(m: Menu) {
    && m.buttonActive == m.navActive
    && m.ariaExpanded == BoolText(m.navActive)
    && m.bodyOverflow == (if m.navActive then "hidden" else "")
  }

  /** One event handled by its listener. */
  function Handle(m: Menu, e: Event): Menu {
    match e
    case ButtonClick =>
      var isActive := !m.navActive;
      Menu(isActive, !m.buttonActive, BoolText(isActive), if isActive then "hidden" else "")
    case LinkClick => Closed
    case KeyDown(key) => if key == "Escape" && m.navActive then Closed else m
  }

  /** A sequence of events handled in order. */
  function Run(m: Menu, events: seq<Event>): Menu
    decreases |events|
  {
    if |events| == 0 then m else Run(Handle(m, events[0]), events[1..])
  }

  /**
   * On a consistent menu: a click flips it open or shut, a link click always
   * closes it, Escape closes an open menu and other keys, or Escape on a
   * closed menu, change nothing.
   */
  lemma HandleEffects(m: Menu, e: Event)
    requires Consistent(m)
    ensures Consistent(Handle(m, e))
    ensures e == ButtonClick ==> Handle(m, e).navActive == !m.navActive
    ensures e == LinkClick ==> !Handle(m, e).navActive
    ensures e.KeyDown? ==>
      Handle(m, e) == (if e.key == "Escape" then Closed else m)
  {
  }

  /** Two clicks in a row restore the menu. */
  lemma ClickTwiceRestores(m: Menu)
    requires Consistent(m)
    ensures Handle(Handle(m, ButtonClick), ButtonClick) == m
  {
  }

  /** Starting from a consistent menu, every event sequence leaves a consistent menu. */
  lemma {:induction false} RunConsistent(m: Menu, events: seq<Event>)
    requires Consistent(m)
    ensures Consistent(Run(m, events))
    decreases |events|
  {
    if |events| > 0 {
      HandleEffects(m, events[0]);
      RunConsistent(Handle(m, events[0]), events[1..]);
    }
  }

  lemma {:induction false} RunAppend(m: Menu, events: seq<Event>, e: Event)
    ensures Run(m, events + [e]) == Handle(Run(m, events), e)
    decreases |events|
  {
    if |events| == 0 {
      assert events + [e] == [e];
    } else {
      assert (events + [e])[1..] == events[1..] + [e];
      RunAppend(Handle(m, events[0]), events[1..], e);
    }
  }

  /** Whatever happened before, a link click leaves the menu closed with all four parts reset. */
  lemma LinkClickCloses(m: Menu, events: seq<Event>)
    ensures Run(m, events + [LinkClick]) == Closed
  {
    RunAppend(m, events, LinkClick);
  }
}

=== FILE: page_effects.dfy ===
/**
 * The remaining state rules of scripts/main.js: the scroll thresholds of the
 * header and of the back-to-top button, and the stagger class given to each
 * project card.
 */
module PageEffects {
  import opened Text

  const HeaderThreshold: real := 50.0
  const BackToTopThreshold: real := 500.0

  /** `initHeaderScroll`: the header carries `scrolled` past 50 pixels. */
  predicate HeaderScrolled(scrollY: real) {
    scrollY > HeaderThreshold
  }

  /** `initBackToTop`: the button carries `visible` past 500 pixels. */
  predicate BackToTopVisible(scrollY: real) {
    scrollY > BackToTopThreshold
  }

  /**
   * The header switches to its scrolled style strictly past 50 pixels (at
   * exactly 50 it is still off) and keeps it further down the page.
   */
  lemma HeaderScrollBoundary(y1: real, y2: real)
    requires y1 <= y2
    ensures HeaderScrolled(y1) ==> HeaderScrolled(y2)
    ensures !HeaderScrolled(50.0) && HeaderScrolled(50.5)
  {
  }

  /**
   * The back-to-top button shows strictly past 500 pixels and stays shown
   * further down; whenever it shows, the header is already scrolled.
   */
  lemma BackToTopBoundary(y1: real, y2: real)
    requires y1 <= y2
    ensures BackToTopVisible(y1) ==> BackToTopVisible(y2)
    ensures BackToTopVisible(y1) ==> HeaderScrolled(y1)
    ensures !BackToTopVisible(500.0) && BackToTopVisible(501.0)
  {
  }

  /**
   * A class kept by a scroll listener: starting from `on`, each scroll event
   * sets it to whether the offset it reports exceeds `threshold`.
   */
  function ToggledAfter(on: bool, threshold: real, offsets: seq<real>): bool
    decreases |offsets|
  {
    if |offsets| == 0 then on else ToggledAfter(offsets[0] > threshold, threshold, offsets[1..])
  }

  /** After at least one scroll event, the class reflects the last offset and nothing earlier. */
  lemma {:induction false} ToggledFollowsLastScroll(on: bool, threshold: real, offsets: seq<real>)
    requires |offsets| > 0
    ensures ToggledAfter(on, threshold, offsets) <==> offsets[|offsets| - 1] > threshold
    decreases |offsets|
  {
    if |offsets| > 1 {
      ToggledFollowsLastScroll(offsets[0] > threshold, threshold, offsets[1..]);
    }
  }

  /**
   * The header after the initial `handleScroll()` at the load offset `loadY`
   * and then the scroll events reporting `offsets`.
   */
  function HeaderAfter(loadY: real, offsets: seq<real>): bool {
    ToggledAfter(HeaderScrolled(loadY), HeaderThreshold, offsets)
  }

  /** The back-to-top button: created without `visible`, and changed only by scroll events. */
  function BackToTopAfter(offsets: seq<real>): bool {
    ToggledAfter(false, BackToTopThreshold, offsets)
  }

  /** The header always matches the current offset, whether or not the page has scrolled since loading. */
  lemma HeaderTracksOffset(loadY: real, offsets: seq<real>)
    ensures HeaderAfter(loadY, offsets) <==>
      HeaderScrolled(if |offsets| == 0 then loadY else offsets[|offsets| - 1])
  {
    if |offsets| > 0 {
      ToggledFollowsLastScroll(HeaderScrolled(loadY), HeaderThreshold, offsets);
    }
  }

  /** The button matches the current offset only once a scroll event has fired; until then it is hidden. */
  lemma BackToTopTracksScrolls(offsets: seq<real>)
    ensures BackToTopAfter(offsets) <==> |offsets| > 0 && BackToTopVisible(offsets[|offsets| - 1])
  {
    if |offsets| > 0 {
      ToggledFollowsLastScroll(false, BackToTopThreshold, offsets);
    }
  }

  /**
   * A page opened already scrolled past 500 pixels (a restored position or
   * an anchor) shows the scrolled header at once but no back-to-top button
   * until the first scroll event.
   */
  lemma LoadedDeepPage(loadY: real)
    requires loadY > BackToTopThreshold
    ensures HeaderAfter(loadY, []) && !BackToTopAfter([])
  {
  }

  /** The stagger number `(index % 5) + 1` of the project at `index`. */
  function StaggerIndex(index: nat): (k: nat)
    ensures 1 <= k <= 5
  {
    index % 5 + 1
  }

  /** The class name `stagger-${(index % 5) + 1}`. */
  function StaggerClass(index: nat): string {
    "stagger-" + NatToDecimal(StaggerIndex(index))
  }

  /**
   * Two projects share a stagger class exactly when their positions differ
   * by a multiple of five, so five consecutive cards get five different
   * delays.
   */
  lemma StaggerClassPeriodic(a: nat, b: nat)
    ensures StaggerClass(a) == StaggerClass(b) <==> a % 5 == b % 5
  {
    var sa := NatToDecimal(StaggerIndex(a));
    var sb := NatToDecimal(StaggerIndex(b));
    if StaggerClass(a) == StaggerClass(b) {
      assert sa == StaggerClass(a)[8..];
      assert sb == StaggerClass(b)[8..];
      DecimalInjective(StaggerIndex(a), StaggerIndex(b));
    }
  }

  /** The first five projects get classes stagger-1 to stagger-5. */
  lemma FirstStaggerClasses()
    ensures StaggerClass(0) == "stagger-1" && StaggerClass(4) == "stagger-5"
    ensures StaggerClass(5) == "stagger-1"
  {
  }
}

=== FILE: particle_frame.dfy ===
/**
 * One frame of the particle animation (`animate` in scripts/main.js): each
 * particle moves by its speed and wraps around the canvas edges, and lines
 * join close pairs. The drawing calls themselves are not modelled; the
 * frame's result is the moved particles and the list of lines.
 */
module ParticleFrame {
  import opened Particles

  /**
   * The wrap-around on one axis: a coordinate below 0 jumps to the far
   * edge, one beyond the far edge jumps to 0 (checked after the first jump,
   * as the two `if`s run in sequence).
   */
  function Wrap(pos: real, bound: nat): (r: real)
    ensures 0.0 <= r <= bound as real
    ensures pos < 0.0 ==> r == bound as real
    ensures pos > bound as real ==> r == 0.0
    ensures 0.0 <= pos <= bound as real ==> r == pos
  {
    var afterLow := if pos < 0.0 then bound as real else pos;
    if afterLow > bound as real then 0.0 else afterLow
  }

  /** Wrapping a coordinate that is already inside changes nothing, so wrapping twice is wrapping once. */
  lemma WrapIdempotent(pos: real, bound: nat)
    ensures Wrap(Wrap(pos, bound), bound) == Wrap(pos, bound)
  {
  }

  /** One particle's update: move by the speed, then wrap on both axes. */
  function Step(p: Particle, width: nat, height: nat): (q: Particle)
    ensures InCanvas(q, width, height)
    ensures q.size == p.size && q.speedX == p.speedX && q.speedY == p.speedY && q.opacity == p.opacity
    ensures WellFormed(p) ==> WellFormed(q)
  {
    p.(x := Wrap(p.x + p.speedX, width), y := Wrap(p.y + p.speedY, height))
  }

  /** A particle whose move keeps it on the canvas simply moves by its speed. */
  lemma StepInside(p: Particle, width: nat, height: nat)
    requires InCanvas(p.(x := p.x + p.speedX, y := p.y + p.speedY), width, height)
    ensures Step(p, width, height) == p.(x := p.x + p.speedX, y := p.y + p.speedY)
  {
  }

  /** Lines are drawn below a distance of 120; squared distances are compared against 120 * 120. */
  const LinkDistance: real := 120.0
  const LinkDistanceSquared: real := 14400.0

  function Dist2(a: Particle, b: Particle): real {
    (a.x - b.x) * (a.x - b.x) + (a.y - b.y) * (a.y - b.y)
  }

  /** For a non-negative distance, `d < 120` and `d * d < 14400` agree. */
  lemma DistanceThreshold(d: real)
    requires d >= 0.0
    ensures d < LinkDistance <==> d * d < LinkDistanceSquared
  {
    if d < LinkDistance {
      assert d * d <= d * LinkDistance;
      assert d * LinkDistance < LinkDistance * LinkDistance;
    } else {
      assert d * d >= d * LinkDistance;
      assert d * LinkDistance >= LinkDistance * LinkDistance;
    }
  }

  /** The stroke alpha `0.1 * (1 - d / 120)` of a line of length `d`. */
  function LinkAlpha(d: real): (a: real)
    requires 0.0 <= d < LinkDistance
    ensures 0.0 < a <= 0.1
  {
    0.1 * (1.0 - d / LinkDistance)
  }

  /** Longer lines are strictly fainter. */
  lemma LinkAlphaDecreasing(d1: real, d2: real)
    requires 0.0 <= d1 < d2 < LinkDistance
    ensures LinkAlpha(d1) > LinkAlpha(d2)
  {
  }

  /** The length `d` of a drawn line is below 120, so its alpha lies in (0, 0.1]. */
  lemma DrawnLinkAlpha(l: Link, d: real)
    requires l.dist2 < LinkDistanceSquared && d >= 0.0 && d * d == l.dist2
    ensures d < LinkDistance
    ensures 0.0 < LinkAlpha(d) <= 0.1
  {
    DistanceThreshold(d);
  }

  /** A line between particles `i < j`, with their squared distance. */
  datatype Link = Link(i: nat, j: nat, dist2: real)

  /**
   * The lines of a frame over the particles `ps` as they were before it:
   * while particle `i` is processed it has already moved this frame, and the
   * particles after it have not, so `i`'s new position is compared with the
   * old positions of the later ones.
   */
  ghost predicate IsFrameLink(ps: seq<Particle>, width: nat, height: nat, l: Link) {
    && l.i < l.j < |ps|
    && l.dist2 == Dist2(Step(ps[l.i], width, height), ps[l.j])
    && l.dist2 < LinkDistanceSquared
  }

  /** Lines from the moved particle `moved` (index `i`) to the particles from index `j` on. */
  function RowLinks(ps: seq<Particle>, moved: Particle, i: nat, j: nat): seq<Link>
    requires j <= |ps|
    decreases |ps| - j
  {
    if j == |ps| then []
    else
      var d2 := Dist2(moved, ps[j]);
      (if d2 < LinkDistanceSquared then [Link(i, j, d2)] else []) + RowLinks(ps, moved, i, j + 1)
  }

  /** The lines drawn while processing particles `i`, `i + 1`, ... in order. */
  function LinksFrom(ps: seq<Particle>, width: nat, height: nat, i: nat): seq<Link>
    requires i <= |ps|
    decreases |ps| - i
  {
    if i == |ps| then []
    else RowLinks(ps, Step(ps[i], width, height), i, i + 1) + LinksFrom(ps, width, height, i + 1)
  }

  lemma {:induction false} RowLinksExact(ps: seq<Particle>, moved: Particle, i: nat, j: nat, l: Link)
    requires j <= |ps|
    ensures l in RowLinks(ps, moved, i, j) <==>
      l.i == i && j <= l.j < |ps| && l.dist2 == Dist2(moved, ps[l.j]) && l.dist2 < LinkDistanceSquared
    decreases |ps| - j
  {
    if j < |ps| {
      RowLinksExact(ps, moved, i, j + 1, l);
    }
  }

  lemma {:induction false} LinksFromExact(ps: seq<Particle>, width: nat, height: nat, i: nat, l: Link)
    requires i <= |ps|
    ensures l in LinksFrom(ps, width, height, i) <==> i <= l.i && IsFrameLink(ps, width, height, l)
    decreases |ps| - i
  {
    if i < |ps| {
      var row := RowLinks(ps, Step(ps[i], width, height), i, i + 1);
      var rest := LinksFrom(ps, width, height, i + 1);
      assert LinksFrom(ps, width, height, i) == row + rest;
      assert l in row + rest <==> l in row || l in rest;
      RowLinksExact(ps, Step(ps[i], width, height), i, i + 1, l);
      LinksFromExact(ps, width, height, i + 1, l);
    }
  }

  /** The moved particles and the lines of one frame. */
  function Frame(s: Scene): (r: (Scene, seq<Link>))
    ensures r.0.width == s.width && r.0.height == s.height
    ensures |r.0.particles| == |s.particles|
    ensures forall k :: 0 <= k < |s.particles| ==> r.0.particles[k] == Step(s.particles[k], s.width, s.height)
  {
    var moved := seq(|s.particles|, k requires 0 <= k < |s.particles| => Step(s.particles[k], s.width, s.height));
    (s.(particles := moved), LinksFrom(s.particles, s.width, s.height, 0))
  }

  /**
   * A frame keeps the scene invariant and puts every particle on the canvas,
   * even one left outside by a resize; and it draws a line for a pair
   * exactly when their distance is below 120.
   */
  lemma FrameProperties(s: Scene, l: Link)
    requires SceneInv(s)
    ensures SceneInv(Frame(s).0)
    ensures forall k :: 0 <= k < |s.particles| ==> InCanvas(Frame(s).0.particles[k], s.width, s.height)
    ensures l in Frame(s).1 <==> IsFrameLink(s.particles, s.width, s.height, l)
  {
    LinksFromExact(s.particles, s.width, s.height, 0, l);
  }
}

=== FILE: particles.dfy ===
/**
 * The particle field behind the landing view (`initParticles` in
 * scripts/main.js): particles, their creation from random draws, how many
 * there are for a viewport, and the (re)seeding on start-up and on resize.
 * Random numbers and viewport sizes are parameters; coordinates are reals.
 */
module Particles {

  datatype Particle = Particle(x: real, y: real, size: real, speedX: real, speedY: real, opacity: real)

  /** The six `Math.random()` results one `createParticle` call consumes, in call order. */
  datatype Draws = Draws(x: real, y: real, size: real, speedX: real, speedY: real, opacity: real)

  predicate InUnit(r: real) {
    0.0 <= r < 1.0
  }

  /** Every draw lies in [0, 1), as `Math.random()` guarantees. */
  predicate ValidDraws(d: Draws) {
    InUnit(d.x) && InUnit(d.y) && InUnit(d.size) && InUnit(d.speedX) && InUnit(d.speedY) && InUnit(d.opacity)
  }

  const MaxParticles: nat := 100
  const AreaPerParticle: nat := 15000
  const ReseedBelow: nat := 20
  const ReseedAbove: nat := 150

  /** Size, speeds and opacity lie in the ranges `createParticle` draws them from. */
  predicate WellFormed(p: Particle) {
    && 1.0 <= p.size < 3.0
    && -0.25 <= p.speedX < 0.25 && -0.25 <= p.speedY < 0.25
    && 0.2 <= p.opacity < 0.7
  }

  predicate InCanvas(p: Particle, width: nat, height: nat) {
    0.0 <= p.x <= width as real && 0.0 <= p.y <= height as real
  }

  /** A draw from [0, 1) scales a bound `m` into [0, m], and into [0, m) when `m` is positive. */
  lemma ScaleInUnit(r: real, m: real, scaled: real)
    requires InUnit(r) && m >= 0.0 && scaled == r * m
    ensures 0.0 <= scaled <= m
    ensures m > 0.0 ==> scaled < m
  {
    assert m - r * m == (1.0 - r) * m;
    if m > 0.0 {
      assert (1.0 - r) * m > 0.0;
    }
  }

  /** `createParticle` on a `width` by `height` canvas. */
  function CreateParticle(width: nat, height: nat, d: Draws): (p: Particle)
    requires ValidDraws(d)
    ensures WellFormed(p) && InCanvas(p, width, height)
    ensures width > 0 ==> p.x < width as real
    ensures height > 0 ==> p.y < height as real
  {
    var x := d.x * width as real;
    var y := d.y * height as real;
    ScaleInUnit(d.x, width as real, x);
    ScaleInUnit(d.y, height as real, y);
    Particle(
      x,
      y,
      d.size * 2.0 + 1.0,
      (d.speedX - 0.5) * 0.5,
      (d.speedY - 0.5) * 0.5,
      d.opacity * 0.5 + 0.2)
  }

  /** The draws that make `CreateParticle` produce `p`. */
  function DrawsFor(p: Particle, width: nat, height: nat): Draws
    requires width > 0 && height > 0
  {
    Draws(
      p.x / width as real,
      p.y / height as real,
      (p.size - 1.0) / 2.0,
      p.speedX * 2.0 + 0.5,
      p.speedY * 2.0 + 0.5,
      (p.opacity - 0.2) * 2.0)
  }

  /**
   * The ranges are exact: every well-formed particle strictly inside a
   * non-empty canvas is what some draws produce.
   */
  lemma CreateParticleReachesAll(p: Particle, width: nat, height: nat)
    requires width > 0 && height > 0 && WellFormed(p)
    requires 0.0 <= p.x < width as real && 0.0 <= p.y < height as real
    ensures ValidDraws(DrawsFor(p, width, height))
    ensures CreateParticle(width, height, DrawsFor(p, width, height)) == p
  {
    var d := DrawsFor(p, width, height);
    assert d.x * width as real == p.x;
    assert d.y * height as real == p.y;
  }

  /** `Math.min(100, Math.floor(width * height / 15000))`. */
  function ParticleCount(width: nat, height: nat): (n: nat)
    ensures n <= MaxParticles
    ensures n * AreaPerParticle <= width * height
    ensures n < MaxParticles ==> width * height < (n + 1) * AreaPerParticle
  {
    var byArea := (width * height) / AreaPerParticle;
    if byArea < MaxParticles then byArea else MaxParticles
  }

  /** The canvas size and the particle list. */
  datatype Scene = Scene(width: nat, height: nat, particles: seq<Particle>)

  /** What every scene the script builds satisfies: at most 100 particles, all well formed. */
  predicate SceneInv(s: Scene) {
    |s.particles| <= MaxParticles && forall i :: 0 <= i < |s.particles| ==> WellFormed(s.particles[i])
  }

  /** Enough valid random draws for `n` particles. */
  predicate DrawsReady(draws: seq<Draws>, n: nat) {
    n <= |draws| && forall i :: 0 <= i < n ==> ValidDraws(draws[i])
  }

  /**
   * `init`: sizes the canvas to the viewport, drops the old particles and
   * creates `ParticleCount` new ones, the i-th from the i-th draws.
   */
  method Init(viewWidth: nat, viewHeight: nat, draws: seq<Draws>) returns (s: Scene)
    requires DrawsReady(draws, ParticleCount(viewWidth, viewHeight))
    ensures s.width == viewWidth && s.height == viewHeight
    ensures |s.particles| == ParticleCount(viewWidth, viewHeight)
    ensures forall i :: 0 <= i < |s.particles| ==>
      s.particles[i] == CreateParticle(viewWidth, viewHeight, draws[i])
    ensures SceneInv(s)
    ensures forall i :: 0 <= i < |s.particles| ==> InCanvas(s.particles[i], viewWidth, viewHeight)
  {
    var count := ParticleCount(viewWidth, viewHeight);
    var particles: seq<Particle> := [];
    var i := 0;
    while i < count
      invariant 0 <= i <= count && |particles| == i
      invariant forall k :: 0 <= k < i ==> particles[k] == CreateParticle(viewWidth, viewHeight, draws[k])
    {
      particles := particles + [CreateParticle(viewWidth, viewHeight, draws[i])];
      i := i + 1;
    }
    s := Scene(viewWidth, viewHeight, particles);
  }

  /** The guard of the resize listener: re-seed when the current count is below 20 or above 150. */
  predicate ReseedsOnResize(count: nat) {
    count < ReseedBelow || count > ReseedAbove
  }

  /**
   * The resize listener: the canvas always takes the new viewport size; the
   * particles are re-seeded only when the guard holds, and otherwise kept
   * where they are, even outside the new canvas.
   */
  method Resize(s: Scene, viewWidth: nat, viewHeight: nat, draws: seq<Draws>) returns (r: Scene)
    requires DrawsReady(draws, ParticleCount(viewWidth, viewHeight))
    ensures r.width == viewWidth && r.height == viewHeight
    ensures !ReseedsOnResize(|s.particles|) ==> r.particles == s.particles
    ensures ReseedsOnResize(|s.particles|) ==>
      && |r.particles| == ParticleCount(viewWidth, viewHeight)
      && forall i :: 0 <= i < |r.particles| ==> r.particles[i] == CreateParticle(viewWidth, viewHeight, draws[i])
    ensures SceneInv(s) ==> SceneInv(r)
  {
    if ReseedsOnResize(|s.particles|) {
      r := Init(viewWidth, viewHeight, draws);
    } else {
      r := s.(width := viewWidth, height := viewHeight);
    }
  }

  /**
   * Because a scene never holds more than 100 particles, the `> 150` half of
   * the guard never fires: a resize re-seeds exactly when fewer than 20
   * particles exist.
   */
  lemma ResizeReseedsOnlySparseFields(s: Scene)
    requires SceneInv(s)
    ensures ReseedsOnResize(|s.particles|) <==> |s.particles| < ReseedBelow
  {
  }

  /**
   * A field seeded for a viewport of at least 300 000 square pixels holds at
   * least 20 particles, so resizes keep it; a smaller viewport's field is
   * re-seeded on every resize.
   */
  lemma SeededCountAndGuard(width: nat, height: nat)
    ensures ReseedsOnResize(ParticleCount(width, height)) <==> width * height < ReseedBelow * AreaPerParticle
  {
  }
}

=== FILE: status_banner.dfy ===
/**
 * The form's status element (`showStatus` in scripts/contact.js): a success
 * banner schedules its own removal five seconds later, an error banner
 * schedules nothing. The five seconds are not modelled; what is kept is the
 * order in which the scheduled removals fire.
 */
module StatusBanner {

  datatype StatusKind = Success | Error

  datatype Status = Hidden | Shown(kind: StatusKind, message: string)

  /**
   * What the element shows, how many banners `showStatus` has put up so far
   * (so `serial` names the banner on screen), and the serials of the success
   * banners whose auto-hide timer is still pending, oldest first. All timers
   * have the same delay, so they fire in that order.
   */
  datatype Banner = Banner(status: Status, serial: nat, pending: seq<nat>)

  const InitialBanner := Banner(Hidden, 0, [])

  /** `showStatus`: puts up a new banner; only a success banner arms an auto-hide timer. */
  function ShowStatus(b: Banner, kind: StatusKind, message: string): (r: Banner)
    ensures r.status == Shown(kind, message)
    ensures r.serial > b.serial
    ensures |r.pending| == |b.pending| + (if kind == Success then 1 else 0)
  {
    var serial := b.serial + 1;
    Banner(Shown(kind, message), serial, if kind == Success then b.pending + [serial] else b.pending)
  }

  /**
   * The oldest pending timer firing, as the callback is written: it empties
   * the element whatever banner is on screen at that moment.
   */
  function AutoHideAsWritten(b: Banner): (r: Banner)
    requires |b.pending| > 0
    ensures r.status == Hidden && r.pending == b.pending[1..]
  {
    Banner(Hidden, b.serial, b.pending[1..])
  }

  /**
   * A success banner followed within five seconds by an error banner: the
   * success banner's timer then removes the error banner, which was meant to
   * stay.
   */
  lemma AutoHideClearsLaterError(m1: string, m2: string)
    ensures var b := ShowStatus(ShowStatus(InitialBanner, Success, m1), Error, m2);
      && b.status == Shown(Error, m2)
      && |b.pending| == 1
      && AutoHideAsWritten(b).status == Hidden
  {
  }

  /**
   * The oldest pending timer firing, as intended: it removes its own success
   * banner and leaves any later banner in place.
   */
  function AutoHide(b: Banner): (r: Banner)
    requires |b.pending| > 0
    ensures r.pending == b.pending[1..] && r.serial == b.serial
    ensures r.status == Hidden || r.status == b.status
  {
    Banner(if b.pending[0] == b.serial then Hidden else b.status, b.serial, b.pending[1..])
  }

  /**
   * The bookkeeping every reachable banner satisfies: pending serials are
   * increasing and no later than the banner on screen, and the banner on
   * screen has a pending timer exactly when it is a success banner.
   */
  ghost predicate Consistent(b: Banner) {
    && (forall i, j :: 0 <= i < j < |b.pending| ==> b.pending[i] < b.pending[j])
    && (forall i :: 0 <= i < |b.pending| ==> 0 < b.pending[i] <= b.serial)
    && (b.status.Shown? && b.status.kind == Success <==>
          |b.pending| > 0 && b.pending[|b.pending| - 1] == b.serial)
  }

  lemma InitialConsistent()
    ensures Consistent(InitialBanner)
  {
  }

  lemma ShowStatusConsistent(b: Banner, kind: StatusKind, message: string)
    requires Consistent(b)
    ensures Consistent(ShowStatus(b, kind, message))
  {
  }

  lemma AutoHideConsistent(b: Banner)
    requires Consistent(b) && |b.pending| > 0
    ensures Consistent(AutoHide(b))
  {
    var r := AutoHide(b);
    if b.pending[0] == b.serial {
      assert |b.pending| == 1;
    }
  }

  /** With the corrected timer an error banner is never removed by a timer. */
  lemma ErrorBannerPersists(b: Banner)
    requires Consistent(b) && |b.pending| > 0
    requires b.status.Shown? && b.status.kind == Error
    ensures AutoHide(b).status == b.status
  {
    assert b.pending[0] <= b.pending[|b.pending| - 1];
  }

  /**
   * With the corrected timer, a banner put up after the one the timer was
   * armed for stays on screen, whatever its kind.
   */
  lemma LaterBannerPersists(b: Banner)
    requires Consistent(b) && |b.pending| > 0 && b.pending[0] < b.serial
    ensures AutoHide(b).status == b.status
  {
  }

  /** With the corrected timer, the timer armed for the banner on screen removes it. */
  lemma OwnBannerCleared(b: Banner)
    requires Consistent(b) && |b.pending| > 0 && b.pending[0] == b.serial
    ensures AutoHide(b).status == Hidden
  {
  }

  /**
   * Two success banners in a row: the first one's timer leaves the second
   * on screen with the corrected timer, and removes it as written.
   */
  lemma SecondSuccessOutlivesFirstTimer(m1: string, m2: string)
    ensures var b := ShowStatus(ShowStatus(InitialBanner, Success, m1), Success, m2);
      && AutoHide(b).status == Shown(Success, m2)
      && AutoHideAsWritten(b).status == Hidden
  {
  }

  /** All pending timers firing one after another. */
  function FireAll(b: Banner): (r: Banner)
    requires Consistent(b)
    ensures Consistent(r) && r.pending == [] && r.serial == b.serial
    decreases |b.pending|
  {
    if |b.pending| == 0 then b
    else
      AutoHideConsistent(b);
      FireAll(AutoHide(b))
  }

  /** With the corrected timer a success banner is gone once its timer has fired. */
  lemma {:induction false} SuccessBannerClears(b: Banner)
    requires Consistent(b)
    requires b.status.Shown? && b.status.kind == Success
    ensures FireAll(b).status == Hidden
    decreases |b.pending|
  {
    AutoHideConsistent(b);
    var next := AutoHide(b);
    if next.status == Hidden {
      HiddenStaysHidden(next);
    } else {
      SuccessBannerClears(next);
    }
  }

  lemma {:induction false} HiddenStaysHidden(b: Banner)
    requires Consistent(b) && b.status == Hidden
    ensures FireAll(b).status == Hidden
    decreases |b.pending|
  {
    if |b.pending| > 0 {
      AutoHideConsistent(b);
      HiddenStaysHidden(AutoHide(b));
    }
  }
}

=== FILE: submission.dfy ===
/**
 * The submit handler of scripts/contact.js as a small state machine over
 * the form: validation, the busy state while the send is in flight, the
 * success or failure branch, and the `finally` block that always leaves the
 * busy state.
 */
module Submission {
  import opened Wrappers
  import opened Validation
  import opened FormControls
  import opened StatusBanner
  import opened Delivery

  datatype Button = Button(text: string, disabled: bool)

  /** The parts of the form the handler changes. */
  datatype Form = Form(controls: seq<Control>, loading: bool, button: Button, banner: Banner)

  const SendingLabel := "Sending..."
  const SuccessText := "Message sent successfully! I'll get back to you soon."
  const FailureText := "Failed to send message. Please try again or email me directly."

  /**
   * One submit: either validation stopped it, or it went through the busy
   * state `busy`, sent with outcome `delivery`, and settled in `form`.
   */
  datatype SubmitRun =
    | Blocked(form: Form)
    | Attempted(busy: Form, delivery: Outcome, form: Form)

  /** The form as the busy state shows it: `loading` on, button disabled and relabelled. */
  function EnterBusy(f: Form): Form {
    f.(loading := true, button := Button(SendingLabel, true))
  }

  /**
   * What every submit does apart from the reset on success: validation
   * stops an invalid form with no busy state, no send and no status; a valid
   * form enters the busy state, sends, shows the banner for the outcome and,
   * in the `finally` block, leaves the busy state with the original label
   * back on an enabled button. A failed send keeps the controls as they were.
   */
  ghost predicate FollowsHandler(f: Form, cfg: SendConfig, relayAccepts: bool, run: SubmitRun) {
    && (run.Blocked? <==> !AllRequiredValid(f.controls))
    && |run.form.controls| == |f.controls|
    && (run.Blocked? ==>
      && run.form.loading == f.loading && run.form.button == f.button && run.form.banner == f.banner
      && forall i :: 0 <= i < |f.controls| ==> run.form.controls[i] == SubmitCheck(f.controls[i]))
    && (run.Attempted? ==>
      && run.busy.loading && run.busy.button == Button(SendingLabel, true)
      && run.busy.banner == f.banner
      && |run.busy.controls| == |f.controls|
      && (forall i :: 0 <= i < |f.controls| ==> run.busy.controls[i] == SubmitCheck(f.controls[i]))
      && run.delivery == SendEmail(cfg, run.busy.controls, relayAccepts))
    && (run.Attempted? ==> !run.form.loading && run.form.button == Button(f.button.text, false))
    && (run.Attempted? ==>
      run.form.banner == (if run.delivery.Succeeded() then ShowStatus(f.banner, Success, SuccessText)
                          else ShowStatus(f.banner, Error, FailureText)))
    && (run.Attempted? && run.delivery.Succeeded() ==>
      && run.form.banner.status == Shown(Success, SuccessText)
      && |run.form.banner.pending| == |f.banner.pending| + 1
      && forall i :: 0 <= i < |f.controls| ==>
           && run.form.controls[i].field == f.controls[i].field.(value := "")
           && run.form.controls[i].inFormGroup == f.controls[i].inFormGroup)
    && (run.Attempted? && !run.delivery.Succeeded() ==>
      && run.form.banner.status == Shown(Error, FailureText)
      && run.form.controls == run.busy.controls)
    && (run.Attempted? && cfg.publicKey == PlaceholderPublicKey ==> run.delivery.Succeeded())
  }

  /** The banner after the send, and on success the controls replaced by `reset`. */
  function AfterSend(busy: Form, delivery: Outcome, reset: seq<Control>): (r: Form)
    ensures r.loading == busy.loading && r.button == busy.button
    ensures delivery.Succeeded() ==> r.banner == ShowStatus(busy.banner, Success, SuccessText) && r.controls == reset
    ensures !delivery.Succeeded() ==> r.banner == ShowStatus(busy.banner, Error, FailureText) && r.controls == busy.controls
  {
    if delivery.Succeeded() then
      busy.(banner := ShowStatus(busy.banner, Success, SuccessText), controls := reset)
    else
      busy.(banner := ShowStatus(busy.banner, Error, FailureText))
  }

  /**
   * The submit handler as written. On success the synthetic `blur` after the
   * reset validates the emptied `.form-group` controls again, so each
   * required one shows "This field is required", each optional one shows
   * nothing, and the controls outside a `.form-group` keep their errors.
   */
  method Submit(f: Form, cfg: SendConfig, relayAccepts: bool) returns (run: SubmitRun)
    ensures FollowsHandler(f, cfg, relayAccepts, run)
    ensures run.Attempted? && run.delivery.Succeeded() ==>
      && (forall i :: 0 <= i < |f.controls| && f.controls[i].inFormGroup ==>
            run.form.controls[i].error == (if f.controls[i].field.required then Some(RequiredMessage) else None))
      && (forall i :: 0 <= i < |f.controls| && !f.controls[i].inFormGroup ==>
            run.form.controls[i].error == run.busy.controls[i].error)
  {
    var isValid, shown := ValidateForm(f.controls);
    var checked := f.(controls := shown);
    if !isValid {
      return Blocked(checked);
    }
    var busy := EnterBusy(checked);
    var delivery := SendEmail(cfg, busy.controls, relayAccepts);
    var reset := ResetAfterSuccessAsWritten(busy.controls);
    ResetShowsRequiredErrors(busy.controls);
    var final := AfterSend(busy, delivery, reset).(loading := false, button := Button(f.button.text, false));
    run := Attempted(busy, delivery, final);
  }

  /** The submit handler with the corrected reset: after a successful send no field shows an error. */
  method SubmitCorrected(f: Form, cfg: SendConfig, relayAccepts: bool) returns (run: SubmitRun)
    ensures FollowsHandler(f, cfg, relayAccepts, run)
    ensures run.Attempted? && run.delivery.Succeeded() ==>
      forall i :: 0 <= i < |f.controls| ==> run.form.controls[i].error.None?
  {
    var isValid, shown := ValidateForm(f.controls);
    var checked := f.(controls := shown);
    if !isValid {
      return Blocked(checked);
    }
    var busy := EnterBusy(checked);
    var delivery := SendEmail(cfg, busy.controls, relayAccepts);
    var final := AfterSend(busy, delivery, ResetAfterSuccess(busy.controls)).(loading := false, button := Button(f.button.text, false));
    run := Attempted(busy, delivery, final);
  }
}

=== FILE: text.dfy ===
/**
 * Character-level helpers shared by the contact form and the page effects:
 * the whitespace set of JavaScript's `String.prototype.trim` and of the `\s`
 * regular-expression class, trimming, and decimal rendering of numbers
 * inside template strings.
 */
module Text {

  /** JavaScript WhiteSpace and LineTerminator code points (the set used by `trim` and by `\s`). */
  predicate IsSpace(c: char) {
    || c == '\t' || c == '\n' || c == '\U{000B}' || c == '\U{000C}' || c == '\r'
    || c == ' ' || c == '\U{00A0}' || c == '\U{1680}'
    || ('\U{2000}' <= c <= '\U{200A}')
    || c == '\U{2028}' || c == '\U{2029}' || c == '\U{202F}' || c == '\U{205F}'
    || c == '\U{3000}' || c == '\U{FEFF}'
  }

  predicate AllSpace(s: string) {
    forall i :: 0 <= i < |s| ==> IsSpace(s[i])
  }

  /** A string with no whitespace at either end. */
  predicate IsTrimmed(s: string) {
    |s| == 0 || (!IsSpace(s[0]) && !IsSpace(s[|s| - 1]))
  }

  /** `String.prototype.trim`: strips whitespace from both ends. */
  function Trim(s: string): (r: string)
    ensures IsTrimmed(r)
    ensures |r| <= |s|
    ensures |r| == 0 <==> AllSpace(s)
    decreases |s|
  {
    if |s| == 0 then s
    else if IsSpace(s[0]) then Trim(s[1..])
    else if IsSpace(s[|s| - 1]) then Trim(s[..|s| - 1])
    else s
  }

  /**
   * Trimming recovers the trimmed core from any whitespace padding, so the
   * result of `Trim` is the one trimmed string that `s` pads.
   */
  lemma {:induction false} TrimPadded(p: string, r: string, q: string)
    requires AllSpace(p) && AllSpace(q) && IsTrimmed(r)
    ensures Trim(p + r + q) == r
    decreases |p| + |q|
  {
    var s := p + r + q;
    if |r| == 0 {
      assert s == p + q;
      assert AllSpace(s);
    } else if |p| > 0 {
      assert s[0] == p[0];
      assert s[1..] == p[1..] + r + q;
      TrimPadded(p[1..], r, q);
    } else if |q| > 0 {
      assert s == r + q;
      assert s[0] == r[0];
      assert s[|s| - 1] == q[|q| - 1];
      assert s[..|s| - 1] == p + r + q[..|q| - 1];
      TrimPadded(p, r, q[..|q| - 1]);
    } else {
      assert s == r;
    }
  }

  /** Trimming an already trimmed string changes nothing. */
  lemma TrimTrimmed(s: string)
    requires IsTrimmed(s)
    ensures Trim(s) == s
  {
    assert "" + s + "" == s;
    TrimPadded("", s, "");
  }

  lemma TrimIdempotent(s: string)
    ensures Trim(Trim(s)) == Trim(s)
  {
    var r := Trim(s);
    assert "" + r + "" == r;
    TrimPadded("", r, "");
  }

  /** A common suffix can be cancelled. */
  lemma AppendCancel(a: string, b: string, c: string)
    requires a + c == b + c
    ensures a == b
  {
    assert |a| == |b|;
    assert a == (a + c)[..|a|];
    assert b == (b + c)[..|b|];
  }

  predicate IsDigit(c: char) {
    '0' <= c <= '9'
  }

  function DigitChar(d: nat): (c: char)
    requires d < 10
    ensures IsDigit(c)
  {
    (('0' as int) + d) as char
  }

  function DigitValue(c: char): (d: nat)
    requires IsDigit(c)
    ensures d < 10 && DigitChar(d) == c
  {
    (c as int) - ('0' as int)
  }

  predicate AllDigits(s: string) {
    forall i :: 0 <= i < |s| ==> IsDigit(s[i])
  }

  /** A number rendered in a template string: shortest decimal form, no leading zeros. */
  function NatToDecimal(n: nat): (s: string)
    ensures |s| > 0 && AllDigits(s)
    ensures s[0] == '0' ==> n == 0
    decreases n
  {
    if n < 10 then [DigitChar(n)] else NatToDecimal(n / 10) + [DigitChar(n % 10)]
  }

  /** The value of a string of decimal digits. */
  function DecimalValue(s: string): nat
    requires AllDigits(s)
    decreases |s|
  {
    if |s| == 0 then 0 else 10 * DecimalValue(s[..|s| - 1]) + DigitValue(s[|s| - 1])
  }

  lemma {:induction false} DecimalRoundTrip(n: nat)
    ensures DecimalValue(NatToDecimal(n)) == n
    decreases n
  {
    var s := NatToDecimal(n);
    if n < 10 {
      assert s[..|s| - 1] == [];
      assert DigitValue(DigitChar(n)) == n;
    } else {
      DecimalRoundTrip(n / 10);
      assert s[..|s| - 1] == NatToDecimal(n / 10);
      assert DigitValue(DigitChar(n % 10)) == n % 10;
    }
  }

  lemma DecimalInjective(a: nat, b: nat)
    ensures NatToDecimal(a) == NatToDecimal(b) <==> a == b
  {
    DecimalRoundTrip(a);
    DecimalRoundTrip(b);
  }
}

=== FILE: validation.dfy ===
/**
 * `validateField` of scripts/contact.js: the decision taken for one form
 * field from its `required` flag, its `type`, its `id` and its value.
 */
module Validation {
  import opened Text
  import opened EmailPattern

  /** The attributes of an `input` or `textarea` that the validator reads. */
  datatype Field = Field(required: bool, inputType: string, id: string, value: string)

  /** The pair computed by the validator: validity and the message to show. */
  datatype Verdict = Verdict(isValid: bool, errorMessage: string)

  const RequiredMessage := "This field is required"
  const EmailMessage := "Please enter a valid email address"
  const LengthMessage := "Message must be at least 10 characters"
  const MinMessageLength := 10

  /** `validateField`: the checks run on the trimmed value. */
  function ValidateField(f: Field): (v: Verdict)
    ensures v.isValid <==> v.errorMessage == ""
    ensures v.errorMessage in {"", RequiredMessage, EmailMessage, LengthMessage}
  {
    CheckValue(f, Trim(f.value))
  }

  /**
   * The three checks run one after another on an already trimmed `value`;
   * each one that fails clears validity and overwrites the message.
   */
  function CheckValue(f: Field, value: string): (v: Verdict)
    ensures v.isValid <==> v.errorMessage == ""
  {
    var afterRequired :=
      if f.required && |value| == 0 then Verdict(false, RequiredMessage) else Verdict(true, "");
    var afterEmail :=
      if f.inputType == "email" && |value| > 0 && !IsEmailAddress(value)
      then Verdict(false, EmailMessage) else afterRequired;
    if f.id == "message" && |value| > 0 && |value| < MinMessageLength
    then Verdict(false, LengthMessage) else afterEmail
  }

  /** The checks, in the order the validator runs them. */
  datatype Check = Required | EmailFormat | MessageLength

  function CheckMessage(c: Check): string {
    match c
    case Required => RequiredMessage
    case EmailFormat => EmailMessage
    case MessageLength => LengthMessage
  }

  /** When each check fails, with the e-mail check read as the regular expression itself. */
  ghost predicate Fails(c: Check, f: Field, value: string) {
    match c
    case Required => f.required && |value| == 0
    case EmailFormat => f.inputType == "email" && |value| > 0 && !MatchesPattern(value)
    case MessageLength => f.id == "message" && 0 < |value| < MinMessageLength
  }

  /** The failing checks in evaluation order. */
  ghost function FailedChecksOn(f: Field, value: string): seq<Check> {
    (if Fails(Required, f, value) then [Required] else [])
    + (if Fails(EmailFormat, f, value) then [EmailFormat] else [])
    + (if Fails(MessageLength, f, value) then [MessageLength] else [])
  }

  ghost function FailedChecks(f: Field): seq<Check> {
    FailedChecksOn(f, Trim(f.value))
  }

  lemma LastFailureWinsOn(f: Field, value: string)
    ensures CheckValue(f, value).isValid <==> |FailedChecksOn(f, value)| == 0
    ensures |FailedChecksOn(f, value)| > 0 ==>
      CheckValue(f, value).errorMessage == CheckMessage(FailedChecksOn(f, value)[|FailedChecksOn(f, value)| - 1])
  {
    EmailScanMatchesPattern(value);
  }

  /**
   * A field is valid exactly when no check fails, and otherwise the message
   * shown is that of the last failing check.
   */
  lemma LastFailureWins(f: Field)
    ensures ValidateField(f).isValid <==> |FailedChecks(f)| == 0
    ensures |FailedChecks(f)| > 0 ==>
      ValidateField(f).errorMessage == CheckMessage(FailedChecks(f)[|FailedChecks(f)| - 1])
  {
    LastFailureWinsOn(f, Trim(f.value));
  }

  /**
   * A blank value (empty after trimming) fails only the required check:
   * a required field reports "This field is required", an optional one is valid.
   */
  lemma BlankField(f: Field)
    requires AllSpace(f.value)
    ensures f.required ==> ValidateField(f) == Verdict(false, RequiredMessage)
    ensures !f.required ==> ValidateField(f) == Verdict(true, "")
  {
  }

  /** For a non-blank e-mail field (other than the message field), validity is the pattern match on the trimmed value. */
  lemma EmailFieldValidity(f: Field)
    requires f.inputType == "email" && f.id != "message" && !AllSpace(f.value)
    ensures ValidateField(f).isValid <==> MatchesPattern(Trim(f.value))
    ensures !ValidateField(f).isValid ==> ValidateField(f).errorMessage == EmailMessage
  {
    EmailScanMatchesPattern(Trim(f.value));
  }

  /** For a non-blank message field that is not of e-mail type, validity is a trimmed length of at least 10. */
  lemma MessageFieldValidity(f: Field)
    requires f.id == "message" && f.inputType != "email" && !AllSpace(f.value)
    ensures ValidateField(f).isValid <==> |Trim(f.value)| >= 10
    ensures !ValidateField(f).isValid ==> ValidateField(f).errorMessage == LengthMessage
  {
  }

  // The sample lemmas below take their literal inputs as parameters pinned by
  // `requires`, so that Dafny does not unroll the validator on the literal itself.

  /** A message of exactly ten characters passes the length check. */
  lemma TenCharacterMessagePasses(v: string)
    requires v == "0123456789"
    ensures ValidateField(Field(true, "textarea", "message", v)).isValid
  {
    TrimTrimmed(v);
    MessageFieldValidity(Field(true, "textarea", "message", v));
  }

  /** A five-character message fails, and so does the same text padded to twelve characters. */
  lemma ShortMessageFails(v: string, padded: string)
    requires v == "short" && padded == "   " + v + "    "
    ensures ValidateField(Field(true, "textarea", "message", v)) == Verdict(false, LengthMessage)
    ensures ValidateField(Field(true, "textarea", "message", padded)) == Verdict(false, LengthMessage)
  {
    TrimTrimmed(v);
    TrimPadded("   ", v, "    ");
    MessageFieldValidity(Field(true, "textarea", "message", v));
    MessageFieldValidity(Field(true, "textarea", "message", padded));
  }

  /** The minimal address passes once the surrounding spaces are trimmed. */
  lemma PaddedAddressPasses(core: string, v: string)
    requires core == "a@b.c" && v == " " + core + " "
    ensures ValidateField(Field(true, "email", "email", v)).isValid
  {
    TrimPadded(" ", core, " ");
    EmailSamples(core, "not-an-email");
    EmailFieldValidity(Field(true, "email", "email", v));
  }

  /** A word without '@' is reported as an invalid address. */
  lemma NonAddressFails(v: string)
    requires v == "not-an-email"
    ensures ValidateField(Field(true, "email", "email", v)) == Verdict(false, EmailMessage)
  {
    TrimTrimmed(v);
    assert !AllSpace(v);
    EmailSamples("a@b.c", v);
    assert !MatchesPattern(Trim(v));
    var f := Field(true, "email", "email", v);
    EmailFieldValidity(f);
    assert !ValidateField(f).isValid;
  }

  /** When the e-mail and length checks both fail, the later length message is the one reported. */
  lemma LaterCheckOverwrites(v: string)
    requires v == "a@b"
    ensures ValidateField(Field(true, "email", "message", v)) == Verdict(false, LengthMessage)
  {
    TrimTrimmed(v);
  }
}

=== FILE: wrappers.dfy ===
/** The optional value used where the scripts get back an element or an index that may be absent. */
module Wrappers {

  datatype Option<+T> = None | Some(value: T)
}
